=== FILE: README.md ===
# Pizza-helicopter order lifecycle, in Dafny

This project models the game logic of `game.js`, the Santa Cruz pizza-delivery
game. The player flies a helicopter over a map. A phone rings for the next
order of a fixed five-order catalog. Accepting it starts a per-order
countdown. The player taps the map near the pizza shop to load pizzas (at most
four) and near a house to deliver. Power-ups along each route change the speed.

The whole session state is one immutable value, `Game.GameState`. Each event is
a pure transition on it:

- `Ring`: the ring timer fires.
- `Accept`: the player taps the phone.
- `Tick(i)`: the one-second interval of catalog order `i` fires.
- `Click(nearShop, nearHouses)`: the player taps the map.
- `Frame(nearBatteries, nearTurtles)`: one animation frame's collision checks.
- `SpeedExpire`: the 5 s speed reset fires.

Distances are not computed. Whether the helicopter is within the 50 m radius
of the shop, of a house or of a power-up is an input of the event.

Modules:

- `Orders` (`orders.dfy`): the catalog and the capacity.
- `Game` (`game.dfy`): the state, `EndGame`, and the invariant `Inv`.
- `Scheduler` (`scheduler.dfy`): ringing, accepting, starting orders, and countdowns.
- `Delivery` (`delivery.dfy`): pickup and the delivery loop, both as a function and as the imperative loop.
- `PowerUps` (`powerups.dfy`): collisions and the speed reset.
- `Session` (`session.dfy`): events, `Step`, `Run`, whole-game properties, scenarios.

The invariant `Inv` says:

- cargo is in [0, 4] and equals the number of tail markers;
- every started order is either active or delivered, so the delivered count is at most 5;
- a ringing phone offers exactly the next unstarted order;
- active orders are kept in acceptance order and have the catalog's pizza counts;
- a countdown is live exactly while the game runs, and a live countdown has time left;
- the game is won exactly when all five orders are delivered;
- the speed multiplier is 1, 2 or 0.5, and it is 1 when no reset is pending.

`Session.StepPreservesInv` proves that every event keeps `Inv`. Here the phone
tap is the handler with a `gameOver` check (see "## Findings"). For the handler
as written, `Session.ReachableAsWritten` proves every clause except the
countdown one. After a loss, a tap on a phone that still rings can start a
countdown that outlives the game.

## Behaviour that follows the code

Some descriptions of this game differ from this file's code. The model follows the code:

- Capacity is 4, and a pickup adds one pizza.
- There is no auto-answer after a ring, no tipping score, and no reminder message.
- The delivery loop at game.js:236-252 has no `break`. One tap can complete several orders, newest first. `Delivery.ClickServesNewestFirst` states which orders a tap serves, and `Session.NewestFirstScenario` and `Session.OneTapDeliversTwo` are two instances.
- Each started order places one battery and one turtle.
- `endGame` neither empties `activeOrders` nor nulls the power-up arrays. The model keeps them too. After game over the frame loop and the map handler return early, and every countdown is stopped. A tap on a phone that still rings can start a new one (see "## Findings").
- The speed-reset timeout is not cancelled by `endGame`. A `SpeedExpire` after game over still resets the multiplier to 1.

## Model

| member | source | states |
|---|---|---|
| Orders.CatalogIsSound | game.js:48-54 | the catalog has five orders, each needing 1 to 4 pizzas with a positive time limit |
| Game.EndGame | game.js:317-323 | the first call records won or lost and stops every active order's countdown, keeping the orders; a call on a finished game changes nothing |
| Game.EndGameIdempotent | game.js:317-319 | a second `endGame`, with either flag, leaves the state of the first |
| Game.Locate | game.js:198-199 | finds the active order an interval belongs to, the first one with that catalog index, or reports none |
| Game.LocateUnique | game.js:196-198 | with orders in acceptance order, an order's countdown is found at its own position |
| Game.InitInv | game.js:56-73 | the load-time state satisfies the invariant |
| Scheduler.Ring | game.js:138-143 | the phone rings iff it already rang or an unconsumed order exists and the game runs; when it does not start ringing (already ringing, catalog used up, or game over) nothing changes; a new ring offers order `nextOrderIndex` and changes nothing else |
| Scheduler.StartOrder | game.js:169-202 | appends one order with the catalog's pizzas and time and a live countdown, plus one live battery and turtle; earlier orders are unchanged |
| Scheduler.AcceptAsWritten | game.js:152-162 | the handler as written: if ringing, it clears ringing, starts the recorded order with one new battery and turtle and advances the next-order index by one; the outcome, cargo, tail, deliveries and speed stay as they were, so after game over an order starts in a game that stays over |
| Scheduler.Accept | game.js:152-165 | no-op unless ringing in a running game; otherwise clears ringing, starts exactly the recorded order after the unchanged earlier ones, and advances the next-order index by exactly one, adding one live battery and turtle; cargo, tail, deliveries, outcome and speed stay as they were |
| Scheduler.Tick | game.js:198-202 | a live interval decrements only its own order's time; reaching 0 or less ends the game as lost and stops every countdown; a cleared interval does nothing |
| Scheduler.RingPreservesInv | game.js:138-143 | a ring keeps the invariant: it offers only the next unstarted order, and only in a running game |
| Scheduler.AcceptPreservesInv | game.js:152-196 | accepting keeps the invariant: acceptance order, one order per catalog index, next-order index within the catalog |
| Scheduler.TickPreservesInv | game.js:198-201 | a countdown firing keeps the invariant, including the loss when it reaches 0 |
| Delivery.Pickup | game.js:225-231 | a tap at the shop adds one pizza and one tail marker below capacity 4, and changes nothing at capacity |
| Delivery.DeliverAt | game.js:238-246 | a delivery removes exactly the order's pizzas and tail markers, removes the order with its interval, and counts one delivery |
| Delivery.Scan | game.js:236-252 | the delivery loop never adds an order; unless the tap wins, every order it keeps is one of the original orders, countdown unchanged; it touches only cargo, tail markers, active orders, the delivered count and the outcome |
| Delivery.Click | game.js:220-253 | no-op after game over; a tap at the shop only picks up, with no delivery attempt; another tap never adds cargo (what it delivers: `Delivery.ClickServesNewestFirst`) |
| Delivery.Served | game.js:236-239 | the reference choice of the loop on the unchanged list: every position it picks lies below the starting position |
| Delivery.ServedPrefix | game.js:236-239 | the loop's choices below a position depend only on the orders below it, which a splice above leaves in place |
| Delivery.ServedNewest | game.js:236-239 | the newest order that can be served when the tap lands is always picked |
| Delivery.RemoveAscending | game.js:245 | a splice keeps acceptance order and removes the order's catalog index from the list |
| Delivery.ServedAfterRemove | game.js:240-245 | after one splice, the orders kept follow the reference choice on the remaining positions |
| Delivery.ScanServed | game.js:236-252 | unless the tap wins, an order stays active iff the reference choice (newest first, cargo lowered by each delivery) does not pick it |
| Delivery.ScanExhausts | game.js:236-252 | no `break`: unless the tap wins, no order left active could still be served with the pizzas that remain |
| Delivery.ClickServesNewestFirst | game.js:220-252 | a tap away from the shop that does not win serves exactly the reference choice, always including the newest servable order, leaves nothing servable behind, and keeps the other orders as they were |
| Delivery.ScanCargo | game.js:236-246 | cargo never goes negative and falls by exactly the pizzas of the orders delivered; tail markers fall by the same amount |
| Delivery.ScanCount | game.js:245-246 | the delivered count grows by exactly the number of orders removed |
| Delivery.ScanKeepsFar | game.js:236-238 | only orders whose house is near are delivered; no other catalog index leaves |
| Delivery.ScanFrame | game.js:246-250 | a tap ends the game only as a win with all orders delivered, and never in a game already over |
| Delivery.ScanIdle | game.js:238 | when no near order can be served, the loop changes nothing |
| Delivery.ScanProgress | game.js:236-246 | when some near order can be served, at least one order is delivered |
| Delivery.DeliversIffSomeDeliverable | game.js:236-252 | both directions: a tap delivers iff some near active order needs no more than is carried; otherwise the state is unchanged |
| Delivery.ClickLoop | game.js:220-253 | the handler's descending `for` loop over a mutable copy computes the functional `Click` |
| Delivery.DeliverPreservesInv | game.js:240-250 | one delivery plus the win check keeps the invariant |
| Delivery.RemoveKeepsOrders | game.js:245 | removing one order keeps the others in acceptance order and valid |
| Delivery.ScanPreservesInv | game.js:236-252 | the whole loop keeps the invariant |
| Delivery.ClickPreservesInv | game.js:220-253 | cargo stays in [0, 4] with one tail marker per pizza, and delivered stays at most 5, on every tap |
| PowerUps.Collide | game.js:286-298 | hitting a live power-up removes it and sets the multiplier to exactly 2 (battery) or 0.5 (turtle) with a fresh reset; a removed one has no effect; nothing else changes |
| PowerUps.Sweep | game.js:285-300 | a `forEach` keeps the number of power-ups of its kind and touches neither the other kind nor anything outside the power-up fields |
| PowerUps.SweepFlags | game.js:285-299 | a `forEach` removes exactly the live power-ups at or after the start whose index is near |
| PowerUps.SweepSpeed | game.js:286-298 | after a `forEach` the multiplier is the kind's factor with a reset pending iff some live near one was hit, else unchanged |
| PowerUps.SweepEffect | game.js:285-300 | a `forEach` removes exactly the live, near power-ups of its kind; the multiplier is the kind's factor iff one was hit |
| PowerUps.Frame | game.js:257-300 | after game over a frame does nothing; otherwise only the power-up flags and the speed change |
| PowerUps.FrameEffect | game.js:283-300 | after one frame, a turtle hit gives 0.5 whatever else was hit, else a battery hit gives 2, else the multiplier is unchanged; exactly the live, near power-ups are removed |
| PowerUps.CollideOneShot | game.js:286-287 | a power-up fires at most once |
| PowerUps.NewestHitWins | game.js:288-298 | a turtle after a battery gives exactly 0.5, not a product; the pending reset then gives 1 |
| PowerUps.SpeedExpire | game.js:290 | a pending reset sets the multiplier to 1 and is used up; with none pending nothing changes |
| PowerUps.FramePreservesInv | game.js:283-300 | a frame keeps the invariant |
| PowerUps.SpeedExpirePreservesInv | game.js:290 | the reset timeout keeps the invariant: the multiplier goes back to 1 with no reset pending |
| Session.Step | game.js:138-300 | only a phone tap starts an order or moves the next-order index; only a map tap changes cargo or deliveries; only a frame or the reset timeout changes the speed |
| Session.StepPreservesInv | game.js:138-300 | every event keeps the whole invariant |
| Session.Run | game.js:138-300 | every state reached by events from a valid state satisfies the invariant |
| Session.ReachableInv | game.js:56-73 | every state reachable from load satisfies the invariant |
| Session.StepMonotone | game.js:162 | the next-order index moves forward by at most one, delivered never decreases, and a finished game keeps its outcome |
| Session.RunMonotone | game.js:162 | over any event sequence: the next-order index only grows, delivered grows up to 5 at most, the outcome is terminal |
| Session.GameOverIsTerminal | game.js:221 | with the guarded phone handler: after game over, rings, taps, countdowns and frames change nothing; only the speed reset still acts |
| Session.WonIffAllDelivered | game.js:250 | in every reachable state, won iff delivered equals the catalog size, and delivered never exceeds it |
| Session.TicksBeforeDeadline | game.js:198-201 | after fewer firings than the seconds left, the game still runs and the order has that many seconds fewer |
| Session.CountdownEndsGame | game.js:198-201 | an undelivered order loses the whole game after exactly its remaining seconds: still running after any fewer firings, lost after that many, even with other orders active |
| Session.FirstDeliveryScenario | game.js:225-250 | accept order 0, load four pizzas (a fifth tap does nothing), deliver: two pizzas and two tail markers left, one delivered |
| Session.NewestFirstScenario | game.js:236-246 | orders 0 to 3 active, 3 pizzas on board, houses 0 and 3 near: order 3 is delivered, one pizza is left, order 0 stays |
| Session.OneTapDeliversTwo | game.js:236-252 | two near orders with 2 + 1 pizzas on board are both delivered by one tap |
| Session.LossWhileRinging | game.js:138-165 | a loss while the phone rings for the next order is reachable |
| Session.AcceptAsWrittenLeaksCountdown | game.js:152-161 | as written, accepting after a loss starts an order whose countdown is live after game over, so the invariant fails |
| Session.LeakedCountdownNeverStops | game.js:198-201 | after game over a live countdown is never cleared: each firing decrements it and leaves it live, past zero |
| Session.GuardedAcceptAfterLoss | game.js:152-153 | with the guard, accepting after a loss changes nothing and no countdown is live |
| Session.StepAsWritten | game.js:152-162 | the machine with the unguarded phone handler: it differs from `Step` only on a phone tap after game over |
| Session.InvAsWrittenWhileRunning | game.js:152-201 | the loosened invariant follows from `Inv`, and while the game runs it is `Inv` |
| Session.StepAsWrittenPreservesInv | game.js:138-300 | with the handler as written, every event keeps cargo, schedule, order, won-iff-all-delivered and speed facts; only "no countdown after game over" is dropped |
| Session.StepAsWrittenMonotone | game.js:152-162 | with the handler as written, the next-order index moves forward by at most one, delivered never decreases, the outcome is terminal |
| Session.RunAsWritten | game.js:138-300 | the loosened invariant holds along any event sequence with the handler as written |
| Session.ReachableAsWritten | game.js:138-300 | with the handler as written: cargo in [0, 4] with one tail marker per pizza, delivered at most 5, won iff all delivered, next-order index and deliveries only grow |
| Session.InitInvAsWritten | game.js:56-73 | the load-time state satisfies the loosened invariant |

## Findings

| source | as written | input that shows it | evidently intended | confidence | as-written member | corrected member |
|---|---|---|---|---|---|---|
| game.js:152-153 | the phone handler checks only `phoneRinging`, not `gameOver`, and `endGame` neither hides the phone nor clears the ringing flag | Ring, Accept, Ring, 45 x Tick(0): the game is lost while the phone rings for order 1; then tap the phone | return early when `gameOver`, like the map handler (game.js:221) and the frame loop (game.js:257) | not executed; low to medium, because the game-over screen may cover the phone icon depending on styles outside this file | Scheduler.AcceptAsWritten, Session.AcceptAsWrittenLeaksCountdown, Session.LeakedCountdownNeverStops | Scheduler.Accept, Session.GuardedAcceptAfterLoss |

With the handler as written, the tap starts order 1 with a live interval. No later `endGame` clears it, and its countdown runs below zero. `Session.Step` uses the guarded `Scheduler.Accept`. `Session.StepAsWritten` uses the handler as written. For that machine, `Session.ReachableAsWritten` proves everything the invariant says except the countdown clause.

## Left out

- leaflet.edgebuffer.js: a tile-prefetch plugin for the map. It is rendering, not game logic.
- Map, tiles, icons and marker placement, including tail-marker and house-marker positions. These are presentation.
- The HUD text (game.js:307-314), the order popup (game.js:204-216) and the game-over screen (game.js:325-334). These are presentation.
- Vibration (game.js:145-149, 156) and the orientation permission (game.js:91-98). These are device I/O.
- Movement: keyboard, tilt calibration and smoothing, and the position update with its cosine correction (game.js:83-132, 259-281). This is floating-point geometry driven by device events. A frame is reduced to its collision checks.
- `distanceTo` and the 50 m radii. They are replaced by boolean and index-set inputs of the events.
- Real scheduling: the 1 s first ring (game.js:338), the 15 s ring cadence (game.js:165), the 1 s intervals and the 5 s speed reset. They are replaced by the explicit events `Ring`, `Tick(i)` and `SpeedExpire`. Any order of events is allowed, which includes every order the clock can produce.
- Power-up coordinates at 0.33 and 0.66 of the shop-to-house line (game.js:176-181). This is float geometry. Only the alive flag of each power-up is kept.
- `spoilInterval` and `lastPickupTime` (game.js:72-73, 228, 323). They are never used.
- `parseInt` of the phone's `dataset.orderIndex` (game.js:160). The model stores the index as a number. It is undefined before the first ring and never read then.
- Delivery.Click: its own contract states only the shop branch and that cargo never grows on a tap elsewhere. Which orders a tap serves, and in what order, is stated by `Delivery.ClickServesNewestFirst`, `Delivery.DeliversIffSomeDeliverable` and the `Delivery.Scan*` lemmas.

=== FILE: delivery.dfy ===
/** The map-tap handler: a tap near the shop picks up one pizza; any other
    tap scans the active orders from newest to oldest and delivers every one
    whose house is near and whose pizzas are on board. The scan has no
    `break`, so one tap can complete several orders. */
module Delivery {
  import opened Orders
  import opened Game

  /** A tap near the shop: one more pizza and one more tail marker, unless
      the carrier is full. */
  function Pickup(s: GameState): (r: GameState)
    ensures s.carrying < Capacity ==> r.carrying == s.carrying + 1
    ensures s.carrying >= Capacity ==> r == s
    ensures r.tail - r.carrying == s.tail - s.carrying
    ensures r.(carrying := s.carrying, tail := s.tail) == s
  {
    if s.carrying < Capacity then s.(carrying := s.carrying + 1, tail := s.tail + 1) else s
  }

  /** Pizzas still owed to the orders of `a`. */
  function SumNeeded(a: seq<ActiveOrder>): int
  {
    if |a| == 0 then 0 else a[0].pizzasNeeded + SumNeeded(a[1..])
  }

  /** Catalog indices of the orders of `a`. */
  function Idxs(a: seq<ActiveOrder>): set<nat>
  {
    set k | 0 <= k < |a| :: a[k].idx
  }

  /** The order is within reach and the carrier holds enough pizzas for it. */
  predicate Deliverable(o: ActiveOrder, carrying: int, near: set<nat>)
  {
    o.idx in near && carrying >= o.pizzasNeeded
  }

  /** One delivery of the order at position `p`: its pizzas and as many tail
      markers leave the carrier, the order and its interval disappear, and
      the delivered count grows by one. */
  function DeliverAt(s: GameState, p: nat): (r: GameState)
    requires p < |s.active|
    ensures r.carrying == s.carrying - s.active[p].pizzasNeeded
    ensures r.tail == s.tail - s.active[p].pizzasNeeded
    ensures r.active == s.active[..p] + s.active[p + 1..]
    ensures r.delivered == s.delivered + 1
    ensures r.(carrying := s.carrying, tail := s.tail, active := s.active, delivered := s.delivered) == s
  {
    var need := s.active[p].pizzasNeeded;
    s.(carrying := s.carrying - need, tail := s.tail - need,
       active := s.active[..p] + s.active[p + 1..], delivered := s.delivered + 1)
  }

  /** The delivery loop over positions `i - 1` down to `0`; a delivery that
      completes the catalog ends the game as a win and stops the loop. */
  function Scan(s: GameState, near: set<nat>, i: nat): (r: GameState)
    requires i <= |s.active|
    ensures |r.active| <= |s.active|
    ensures r.outcome == s.outcome ==> forall o :: o in r.active ==> o in s.active
    ensures r.(active := s.active, carrying := s.carrying, tail := s.tail,
               delivered := s.delivered, outcome := s.outcome) == s
    decreases i
  {
    if i == 0 then s
    else if Deliverable(s.active[i - 1], s.carrying, near) then
      var d := DeliverAt(s, i - 1);
      if d.delivered == |Catalog| then EndGame(d, true) else Scan(d, near, i - 1)
    else Scan(s, near, i - 1)
  }

  /** The map click handler (without the tap position, which becomes
      `nearShop` and the set `near` of catalog indices whose house is near). */
  function Click(s: GameState, nearShop: bool, near: set<nat>): (r: GameState)
    ensures s.Over() ==> r == s
    ensures !s.Over() && nearShop ==> r == Pickup(s)
    ensures !s.Over() && !nearShop ==> r.carrying <= s.carrying
  {
    if s.Over() then s
    else if nearShop then Pickup(s)
    else ScanCargo(s, near, |s.active|); Scan(s, near, |s.active|)
  }

  // ----- lemmas about the delivery loop -----

  lemma {:induction false} SumNeededAppend(a: seq<ActiveOrder>, b: seq<ActiveOrder>)
    ensures SumNeeded(a + b) == SumNeeded(a) + SumNeeded(b)
  {
    if |a| == 0 {
      assert a + b == b;
    } else {
      assert (a + b)[1..] == a[1..] + b;
      SumNeededAppend(a[1..], b);
    }
  }

  lemma {:induction false} SumNeededRemove(a: seq<ActiveOrder>, p: nat)
    requires p < |a|
    ensures SumNeeded(a[..p] + a[p + 1..]) == SumNeeded(a) - a[p].pizzasNeeded
  {
    assert a == a[..p] + ([a[p]] + a[p + 1..]);
    SumNeededAppend(a[..p], [a[p]] + a[p + 1..]);
    SumNeededAppend(a[..p], a[p + 1..]);
    assert ([a[p]] + a[p + 1..])[1..] == a[p + 1..];
  }

  lemma {:induction false} SumNeededStopAll(a: seq<ActiveOrder>)
    ensures SumNeeded(StopAll(a)) == SumNeeded(a)
  {
    if |a| > 0 {
      assert StopAll(a)[1..] == StopAll(a[1..]);
      SumNeededStopAll(a[1..]);
    }
  }

  /** Cargo on one tap: it never goes below zero and only falls, by exactly
      the pizzas of the orders that left the active list, and one tail
      marker leaves per pizza. */
  lemma {:induction false} ScanCargo(s: GameState, near: set<nat>, i: nat)
    requires i <= |s.active|
    ensures var r := Scan(s, near, i);
      && (0 <= s.carrying ==> 0 <= r.carrying)
      && r.carrying <= s.carrying
      && s.carrying - r.carrying == s.tail - r.tail
      && s.carrying - r.carrying == SumNeeded(s.active) - SumNeeded(r.active)
    decreases i
  {
    if i > 0 && Deliverable(s.active[i - 1], s.carrying, near) {
      var d := DeliverAt(s, i - 1);
      SumNeededRemove(s.active, i - 1);
      if d.delivered == |Catalog| {
        SumNeededStopAll(d.active);
      } else {
        ScanCargo(d, near, i - 1);
      }
    } else if i > 0 {
      ScanCargo(s, near, i - 1);
    }
  }

  /** One delivery is counted per order that left the active list. */
  lemma {:induction false} ScanCount(s: GameState, near: set<nat>, i: nat)
    requires i <= |s.active|
    ensures var r := Scan(s, near, i);
      && |r.active| <= |s.active|
      && r.delivered - s.delivered == |s.active| - |r.active|
    decreases i
  {
    if i > 0 && Deliverable(s.active[i - 1], s.carrying, near) {
      var d := DeliverAt(s, i - 1);
      if d.delivered != |Catalog| {
        ScanCount(d, near, i - 1);
      }
    } else if i > 0 {
      ScanCount(s, near, i - 1);
    }
  }

  /** Only orders whose house is near leave the active list. */
  lemma {:induction false} ScanKeepsFar(s: GameState, near: set<nat>, i: nat)
    requires i <= |s.active|
    ensures var r := Scan(s, near, i);
      && Idxs(r.active) <= Idxs(s.active)
      && forall k :: 0 <= k < |s.active| && s.active[k].idx !in near ==> s.active[k].idx in Idxs(r.active)
    decreases i
  {
    if i > 0 && Deliverable(s.active[i - 1], s.carrying, near) {
      var p := i - 1;
      var d := DeliverAt(s, p);
      assert Idxs(d.active) <= Idxs(s.active) by {
        forall x | x in Idxs(d.active) ensures x in Idxs(s.active) {
          var k :| 0 <= k < |d.active| && d.active[k].idx == x;
          if k < p { assert d.active[k] == s.active[k]; }
          else { assert d.active[k] == s.active[k + 1]; }
        }
      }
      forall k | 0 <= k < |s.active| && s.active[k].idx !in near
        ensures s.active[k].idx in Idxs(d.active)
      {
        if k < p { assert d.active[k] == s.active[k]; }
        else { assert d.active[k - 1] == s.active[k]; }
      }
      if d.delivered == |Catalog| {
        var r := EndGame(d, true);
        assert Idxs(r.active) == Idxs(d.active) by {
          assert forall k :: 0 <= k < |d.active| ==> r.active[k].idx == d.active[k].idx;
        }
      } else {
        ScanKeepsFar(d, near, p);
      }
    } else if i > 0 {
      ScanKeepsFar(s, near, i - 1);
    }
  }

  /** A tap can end the game only as a win with the catalog complete. */
  lemma {:induction false} ScanFrame(s: GameState, near: set<nat>, i: nat)
    requires i <= |s.active|
    ensures var r := Scan(s, near, i);
      r.outcome != s.outcome ==> !s.Over() && r.outcome == Won && r.delivered == |Catalog|
    decreases i
  {
    if i > 0 && Deliverable(s.active[i - 1], s.carrying, near) {
      var d := DeliverAt(s, i - 1);
      if d.delivered != |Catalog| {
        ScanFrame(d, near, i - 1);
      }
    } else if i > 0 {
      ScanFrame(s, near, i - 1);
    }
  }

  /** A tap that finds no near order it can serve changes nothing. */
  lemma {:induction false} ScanIdle(s: GameState, near: set<nat>, i: nat)
    requires i <= |s.active|
    requires forall k :: 0 <= k < i ==> !Deliverable(s.active[k], s.carrying, near)
    ensures Scan(s, near, i) == s
    decreases i
  {
    if i > 0 {
      ScanIdle(s, near, i - 1);
    }
  }

  /** A tap with some near order it can serve delivers at least one order. */
  lemma {:induction false} ScanProgress(s: GameState, near: set<nat>, i: nat, k: nat)
    requires i <= |s.active|
    requires k < i && Deliverable(s.active[k], s.carrying, near)
    ensures Scan(s, near, i).delivered > s.delivered
    decreases i
  {
    if Deliverable(s.active[i - 1], s.carrying, near) {
      var d := DeliverAt(s, i - 1);
      if d.delivered != |Catalog| {
        ScanCount(d, near, i - 1);
      }
    } else {
      ScanProgress(s, near, i - 1, k);
    }
  }

  /** The loop's choices on the unchanged list: the positions below `i` it
      delivers, from the newest down, starting with `c` pizzas on board.
      Each delivery lowers the cargo the older orders are checked against. */
  function Served(a: seq<ActiveOrder>, c: int, near: set<nat>, i: nat): (r: set<nat>)
    requires i <= |a|
    ensures forall k :: k in r ==> k < i
    decreases i
  {
    if i == 0 then {}
    else if Deliverable(a[i - 1], c, near) then {i - 1} + Served(a, c - a[i - 1].pizzasNeeded, near, i - 1)
    else Served(a, c, near, i - 1)
  }

  /** The choices below `i` depend only on the orders below `i`. */
  lemma {:induction false} ServedPrefix(a: seq<ActiveOrder>, b: seq<ActiveOrder>, c: int, near: set<nat>, i: nat)
    requires i <= |a| && i <= |b| && a[..i] == b[..i]
    ensures Served(a, c, near, i) == Served(b, c, near, i)
    decreases i
  {
    if i > 0 {
      assert a[i - 1] == a[..i][i - 1] == b[..i][i - 1] == b[i - 1];
      assert a[..i - 1] == a[..i][..i - 1] == b[..i][..i - 1] == b[..i - 1];
      ServedPrefix(a, b, c, near, i - 1);
      ServedPrefix(a, b, c - a[i - 1].pizzasNeeded, near, i - 1);
    }
  }

  /** Newest first: the newest order that can be served when the tap lands
      is always served, whatever older orders would also fit. */
  lemma {:induction false} ServedNewest(a: seq<ActiveOrder>, c: int, near: set<nat>, i: nat, k: nat)
    requires k < i <= |a|
    requires Deliverable(a[k], c, near)
    requires forall m :: k < m < i ==> !Deliverable(a[m], c, near)
    ensures k in Served(a, c, near, i)
    decreases i
  {
    if k < i - 1 {
      ServedNewest(a, c, near, i - 1, k);
    }
  }

  /** Removing one order keeps the list in acceptance order, and its
      catalog index is gone from the list. */
  lemma RemoveAscending(a: seq<ActiveOrder>, p: nat)
    requires p < |a| && Ascending(a)
    ensures Ascending(a[..p] + a[p + 1..])
    ensures a[p].idx !in Idxs(a[..p] + a[p + 1..])
  {
    var b := a[..p] + a[p + 1..];
    forall x | x in Idxs(b) ensures x != a[p].idx {
      var m :| 0 <= m < |b| && b[m].idx == x;
      if m < p { assert b[m] == a[m]; } else { assert b[m] == a[m + 1]; }
    }
  }

  /** One step of `ScanServed`, on the lists alone: the order at `p` is
      delivered, and what is kept of the rest follows `served`. */
  lemma ServedAfterRemove(a: seq<ActiveOrder>, p: nat, kept: seq<ActiveOrder>, served: set<nat>)
    requires p < |a| && Ascending(a)
    requires forall k :: k in served ==> k < p
    requires Idxs(kept) <= Idxs(a[..p] + a[p + 1..])
    requires forall k :: 0 <= k < |a| - 1 ==> ((a[..p] + a[p + 1..])[k].idx in Idxs(kept) <==> k !in served)
    ensures forall k :: 0 <= k < |a| ==> (a[k].idx in Idxs(kept) <==> k !in {p} + served)
  {
    var b := a[..p] + a[p + 1..];
    RemoveAscending(a, p);
    forall k | 0 <= k < |a| ensures a[k].idx in Idxs(kept) <==> k !in {p} + served {
      if k < p {
        assert b[k] == a[k];
      } else if k > p {
        assert b[k - 1] == a[k];
        assert k - 1 !in served;
      } else {
        assert a[p].idx !in Idxs(b);
      }
    }
  }

  /** The loop delivers exactly the orders `Served` picks: an order stays iff
      it is not among them (unless the tap completes the catalog and wins). */
  lemma {:induction false} ScanServed(s: GameState, near: set<nat>, i: nat)
    requires i <= |s.active| && !s.Over() && Ascending(s.active)
    ensures var r := Scan(s, near, i);
      r.outcome == s.outcome ==>
        forall k :: 0 <= k < |s.active| ==>
          (s.active[k].idx in Idxs(r.active) <==> k !in Served(s.active, s.carrying, near, i))
    decreases i
  {
    if i > 0 && Deliverable(s.active[i - 1], s.carrying, near) {
      var p := i - 1;
      var d := DeliverAt(s, p);
      if d.delivered != |Catalog| {
        var r := Scan(d, near, p);
        RemoveAscending(s.active, p);
        ScanServed(d, near, p);
        ScanKeepsFar(d, near, p);
        assert d.active[..p] == s.active[..p];
        ServedPrefix(d.active, s.active, d.carrying, near, p);
        assert Scan(s, near, i) == r;
        var served := Served(s.active, d.carrying, near, p);
        assert Served(s.active, s.carrying, near, i) == {p} + served;
        assert d.active == s.active[..p] + s.active[p + 1..];
        if r.outcome == s.outcome {
          ServedAfterRemove(s.active, p, r.active, served);
        }
      }
    } else if i > 0 {
      ScanServed(s, near, i - 1);
    }
  }

  /** No break: once the loop is done, no order it left behind could still
      be served with the pizzas that remain. The precondition says the
      positions from `i` up were already passed over. */
  lemma {:induction false} ScanExhausts(s: GameState, near: set<nat>, i: nat)
    requires i <= |s.active| && !s.Over()
    requires forall k :: i <= k < |s.active| ==> !Deliverable(s.active[k], s.carrying, near)
    ensures var r := Scan(s, near, i);
      r.outcome == s.outcome ==> forall k :: 0 <= k < |r.active| ==> !Deliverable(r.active[k], r.carrying, near)
    decreases i
  {
    if i > 0 && Deliverable(s.active[i - 1], s.carrying, near) {
      var p := i - 1;
      var d := DeliverAt(s, p);
      if d.delivered != |Catalog| {
        forall k | p <= k < |d.active| ensures !Deliverable(d.active[k], d.carrying, near) {
          assert d.active[k] == s.active[k + 1];
        }
        ScanExhausts(d, near, p);
        var r := Scan(d, near, p);
        assert Scan(s, near, i) == r && d.outcome == s.outcome;
        if r.outcome == s.outcome {
          assert forall k :: 0 <= k < |r.active| ==> !Deliverable(r.active[k], r.carrying, near);
        }
      }
    } else if i > 0 {
      ScanExhausts(s, near, i - 1);
      assert Scan(s, near, i) == Scan(s, near, i - 1);
    }
  }

  /** A tap away from the shop in a game that goes on: it serves exactly the
      orders `Served` picks, newest first, so the newest servable order is
      always among them; and it leaves no near order it could still serve. */
  lemma ClickServesNewestFirst(s: GameState, near: set<nat>)
    requires !s.Over() && Ascending(s.active)
    ensures var r := Click(s, false, near);
      !r.Over() ==>
        && (forall k :: 0 <= k < |s.active| ==>
              (s.active[k].idx in Idxs(r.active) <==> k !in Served(s.active, s.carrying, near, |s.active|)))
        && (forall k :: 0 <= k < |s.active| && Deliverable(s.active[k], s.carrying, near)
                        && (forall m :: k < m < |s.active| ==> !Deliverable(s.active[m], s.carrying, near))
              ==> s.active[k].idx !in Idxs(r.active))
        && (forall k :: 0 <= k < |r.active| ==> !Deliverable(r.active[k], r.carrying, near))
        && (forall o :: o in r.active ==> o in s.active)
  {
    var n := |s.active|;
    ScanServed(s, near, n);
    ScanExhausts(s, near, n);
    forall k | 0 <= k < n && Deliverable(s.active[k], s.carrying, near)
                 && (forall m :: k < m < n ==> !Deliverable(s.active[m], s.carrying, near))
      ensures k in Served(s.active, s.carrying, near, n)
    {
      ServedNewest(s.active, s.carrying, near, n, k);
    }
  }

  /** Both directions: the delivered count grows on a tap away from the shop
      exactly when some near active order needs no more than is carried;
      otherwise the tap changes nothing at all. */
  lemma DeliversIffSomeDeliverable(s: GameState, near: set<nat>)
    requires !s.Over()
    ensures var r := Click(s, false, near);
      r.delivered > s.delivered <==>
        exists k :: 0 <= k < |s.active| && Deliverable(s.active[k], s.carrying, near)
    ensures (forall k :: 0 <= k < |s.active| ==> !Deliverable(s.active[k], s.carrying, near))
      ==> Click(s, false, near) == s
  {
    if exists k :: 0 <= k < |s.active| && Deliverable(s.active[k], s.carrying, near) {
      var k :| 0 <= k < |s.active| && Deliverable(s.active[k], s.carrying, near);
      ScanProgress(s, near, |s.active|, k);
    } else {
      ScanIdle(s, near, |s.active|);
    }
  }

  /** The handler's `for` loop, run over a working copy of the state exactly
      as the source runs it; it computes the functional model. */
  method ClickLoop(s: GameState, nearShop: bool, near: set<nat>) returns (r: GameState)
    ensures r == Click(s, nearShop, near)
  {
    if s.Over() {
      return s;
    }
    if nearShop {
      r := s;
      if r.carrying < Capacity {
        r := r.(carrying := r.carrying + 1, tail := r.tail + 1);
      }
      return;
    }
    r := s;
    var i: int := |r.active| - 1;
    while i >= 0
      invariant -1 <= i < |r.active|
      invariant Scan(r, near, i + 1) == Scan(s, near, |s.active|)
      decreases i
    {
      var order := r.active[i];
      if order.idx in near && r.carrying >= order.pizzasNeeded {
        r := r.(carrying := r.carrying - order.pizzasNeeded, tail := r.tail - order.pizzasNeeded);
        r := r.(active := r.active[..i] + r.active[i + 1..], delivered := r.delivered + 1);
        if r.delivered == |Catalog| {
          r := EndGame(r, true);
          return;
        }
      }
      i := i - 1;
    }
  }

  // ----- the invariant is preserved -----

  /** Removing one order keeps the rest in acceptance order and valid. */
  lemma RemoveKeepsOrders(a: seq<ActiveOrder>, p: nat, next: nat, outcome: Outcome)
    requires p < |a| && Ascending(a)
    requires AllOk(a, next, outcome)
    ensures Ascending(a[..p] + a[p + 1..])
    ensures AllOk(a[..p] + a[p + 1..], next, outcome)
  {
  }

  /** One delivery, followed by the win check, keeps the invariant. */
  lemma DeliverPreservesInv(s: GameState, p: nat)
    requires Inv(s) && !s.Over()
    requires p < |s.active| && s.carrying >= s.active[p].pizzasNeeded
    ensures var d := DeliverAt(s, p);
      Inv(if d.delivered == |Catalog| then EndGame(d, true) else d)
  {
  }

  lemma {:induction false} ScanPreservesInv(s: GameState, near: set<nat>, i: nat)
    requires Inv(s) && !s.Over()
    requires i <= |s.active|
    ensures Inv(Scan(s, near, i))
    decreases i
  {
    if i > 0 && Deliverable(s.active[i - 1], s.carrying, near) {
      DeliverPreservesInv(s, i - 1);
      var d := DeliverAt(s, i - 1);
      if d.delivered != |Catalog| {
        ScanPreservesInv(d, near, i - 1);
      }
    } else if i > 0 {
      ScanPreservesInv(s, near, i - 1);
    }
  }

  /** Cargo stays in [0, 4] with one tail marker per pizza, and the delivered
      count stays at most the catalog size, whatever is tapped. */
  lemma ClickPreservesInv(s: GameState, nearShop: bool, near: set<nat>)
    requires Inv(s)
    ensures Inv(Click(s, nearShop, near))
  {
    if !s.Over() && !nearShop {
      ScanPreservesInv(s, near, |s.active|);
    }
  }
}

=== FILE: game.dfy ===
/** The whole session state of the game as one immutable value, the
    end-of-game transition, and the invariant every reachable state keeps. */
module Game {
  import opened Orders

  datatype Option<+T> = None | Some(value: T)

  /** `gameOver` together with the win/loss flag handed to `endGame`. */
  datatype Outcome = Running | Won | Lost

  /** An accepted order. `ticking` says whether its one-second interval is
      still live; `idx` is its position in the catalog. */
  datatype ActiveOrder = ActiveOrder(idx: nat, pizzasNeeded: nat, timeLeft: int, ticking: bool)

  /** The game's global variables.
      - `next`: the catalog index that rings next (`nextOrderIndex`);
      - `ringing`, `pending`: the phone is ringing for catalog order `pending`;
      - `active`: accepted orders in acceptance order (`activeOrders`);
      - `carrying`: pizzas on board; `tail`: number of tail markers;
      - `batteries`, `turtles`: one power-up of each kind per started order,
        `false` once collected (the `null` tombstone);
      - `multiplier`, `speedPending`: the speed factor and whether a reset
        timeout for it is outstanding. */
  datatype GameState = GameState(
    next: nat,
    ringing: bool,
    pending: nat,
    active: seq<ActiveOrder>,
    delivered: nat,
    carrying: int,
    tail: int,
    batteries: seq<bool>,
    turtles: seq<bool>,
    multiplier: real,
    speedPending: bool,
    outcome: Outcome)
  {
    predicate Over()
    {
      outcome != Running
    }
  }

  /** The state at page load, before the first ring. */
  const Init: GameState :=
    GameState(0, false, 0, [], 0, 0, 0, [], [], 1.0, false, Running)

  /** Every order keeps its fields, its timer is stopped. */
  function StopAll(a: seq<ActiveOrder>): (r: seq<ActiveOrder>)
    ensures |r| == |a|
    ensures forall k :: 0 <= k < |a| ==> r[k] == a[k].(ticking := false)
  {
    seq(|a|, k requires 0 <= k < |a| => a[k].(ticking := false))
  }

  /** `endGame(win)`: guarded by `gameOver`; the first call records the
      outcome and clears the interval of every active order. */
  function EndGame(s: GameState, win: bool): (r: GameState)
    ensures r.Over()
    ensures s.Over() ==> r == s
    ensures !s.Over() ==> r.outcome == (if win then Won else Lost)
    ensures !s.Over() ==> forall k :: 0 <= k < |r.active| ==> !r.active[k].ticking
    ensures r.(active := s.active, outcome := s.outcome) == s
    ensures |r.active| == |s.active|
    ensures forall k :: 0 <= k < |s.active| ==> r.active[k].(ticking := s.active[k].ticking) == s.active[k]
  {
    if s.Over() then s
    else s.(outcome := if win then Won else Lost, active := StopAll(s.active))
  }

  /** A second `endGame` call, with either flag, changes nothing. */
  lemma EndGameIdempotent(s: GameState, win: bool, win2: bool)
    ensures EndGame(EndGame(s, win), win2) == EndGame(s, win)
  {
  }

  /** The position of the active order for catalog index `i`, if any. */
  function Locate(a: seq<ActiveOrder>, i: nat): (r: Option<nat>)
    ensures r.Some? ==> r.value < |a| && a[r.value].idx == i
    ensures r.Some? ==> forall k :: 0 <= k < r.value ==> a[k].idx != i
    ensures r.None? <==> forall k :: 0 <= k < |a| ==> a[k].idx != i
  {
    if |a| == 0 then None
    else if a[0].idx == i then Some(0)
    else match Locate(a[1..], i)
      case None => None
      case Some(k) => Some(k + 1)
  }

  // ----- the invariant -----

  /** Cargo stays in [0, Capacity] and the tail has one marker per pizza. */
  predicate CargoOk(s: GameState)
  {
    0 <= s.carrying <= Capacity && s.tail == s.carrying
  }

  /** Every started order is either active or delivered; at most the whole
      catalog is started; a ringing phone offers the next unstarted order. */
  predicate ScheduleOk(s: GameState)
  {
    && s.next <= |Catalog|
    && s.delivered + |s.active| == s.next
    && (s.ringing ==> s.pending == s.next && s.next < |Catalog|)
  }

  /** An active order is a started catalog order with the catalog's pizza
      count, a countdown not above the catalog's time, and a live timer
      exactly while the game runs; a live timer has time left. */
  predicate OrderOk(o: ActiveOrder, next: nat, outcome: Outcome)
  {
    && o.idx < next
    && o.idx < |Catalog|
    && o.pizzasNeeded == Catalog[o.idx].pizzas
    && o.timeLeft <= Catalog[o.idx].time
    && (o.ticking ==> o.timeLeft > 0)
    && (o.ticking <==> outcome == Running)
  }

  /** Active orders are listed in acceptance order, that is by catalog index. */
  predicate Ascending(a: seq<ActiveOrder>)
  {
    forall p, q :: 0 <= p < q < |a| ==> a[p].idx < a[q].idx
  }

  predicate AllOk(a: seq<ActiveOrder>, next: nat, outcome: Outcome)
  {
    forall p :: 0 <= p < |a| ==> OrderOk(a[p], next, outcome)
  }

  predicate ActiveOk(s: GameState)
  {
    Ascending(s.active) && AllOk(s.active, s.next, s.outcome)
  }

  /** The game is won exactly when every catalog order was delivered. */
  predicate SessionOk(s: GameState)
  {
    s.outcome == Won <==> s.delivered == |Catalog|
  }

  /** One battery and one turtle per started order; the multiplier is one of
      the three values the game assigns, and 1 when no reset is pending. */
  predicate PowerOk(s: GameState)
  {
    && |s.batteries| == s.next
    && |s.turtles| == s.next
    && (s.multiplier == 1.0 || s.multiplier == 2.0 || s.multiplier == 0.5)
    && (!s.speedPending ==> s.multiplier == 1.0)
  }

  predicate Inv(s: GameState)
  {
    CargoOk(s) && ScheduleOk(s) && ActiveOk(s) && SessionOk(s) && PowerOk(s)
  }

  lemma InitInv()
    ensures Inv(Init)
  {
  }

  /** Catalog indices of active orders are unique, so the countdown of order
      `i` is found at its own position. */
  lemma LocateUnique(s: GameState, p: nat)
    requires Ascending(s.active)
    requires p < |s.active|
    ensures Locate(s.active, s.active[p].idx) == Some(p)
  {
  }
}

=== FILE: orders.dfy ===
/** The static order catalog of the pizza-helicopter game and the carrier's
    capacity. Coordinates are left out: distance is an input of the events. */
module Orders {

  /** One catalog entry: where it goes, how many pizzas, how many seconds. */
  datatype OrderDef = OrderDef(address: string, pizzas: nat, time: nat)

  /** The five orders, in the order the phone rings for them. */
  const Catalog: seq<OrderDef> := [
    OrderDef("121 Waugh Ave", 2, 45),
    OrderDef("55 Front St", 1, 30),
    OrderDef("300 Bay St", 3, 60),
    OrderDef("45 Mission St", 2, 50),
    OrderDef("10 Ocean St", 4, 60)
  ]

  /** Pizzas the helicopter can carry at once (the `carryingCount < 4` guard). */
  const Capacity: int := 4

  /** Every order needs at least one pizza, no more than fit in the carrier,
      and grants a positive number of seconds: each order can be delivered. */
  predicate CatalogSound()
  {
    forall i :: 0 <= i < |Catalog| ==>
      0 < Catalog[i].pizzas <= Capacity && 0 < Catalog[i].time
  }

  lemma CatalogIsSound()
    ensures CatalogSound()
    ensures |Catalog| == 5
  {
  }
}

=== FILE: powerups.dfy ===
/** Power-up collisions of the frame loop. Each started order places one
    battery (speed x2) and one turtle (speed x0.5); hitting one removes it
    for good and sets the speed multiplier, replacing any earlier effect.
    The 5 s reset timeout becomes the explicit event `SpeedExpire`. */
module PowerUps {
  import opened Game

  datatype Kind = Battery | Turtle

  /** The multiplier a collision sets: exactly 2 or exactly 0.5. */
  function Factor(k: Kind): real
  {
    match k
    case Battery => 2.0
    case Turtle => 0.5
  }

  /** Alive flags of the power-ups of one kind. */
  function Alive(s: GameState, k: Kind): seq<bool>
  {
    match k
    case Battery => s.batteries
    case Turtle => s.turtles
  }

  function Other(k: Kind): Kind
  {
    match k
    case Battery => Turtle
    case Turtle => Battery
  }

  /** The state outside the power-up fields. */
  function Rest(s: GameState): GameState
  {
    s.(batteries := [], turtles := [], multiplier := 0.0, speedPending := false)
  }

  /** The carrier meets power-up `j` of kind `k`: a live one is removed and
      the multiplier becomes its factor, with a fresh reset timeout; a
      removed one has no effect. */
  function Collide(s: GameState, k: Kind, j: nat): (r: GameState)
    requires j < |Alive(s, k)|
    ensures Alive(s, k)[j] ==> r.multiplier == Factor(k) && r.speedPending
    ensures !Alive(s, k)[j] ==> r == s
    ensures |Alive(r, k)| == |Alive(s, k)|
    ensures !Alive(r, k)[j]
    ensures forall m :: 0 <= m < |Alive(s, k)| && m != j ==> Alive(r, k)[m] == Alive(s, k)[m]
    ensures Alive(r, Other(k)) == Alive(s, Other(k))
    ensures Rest(r) == Rest(s)
  {
    if !Alive(s, k)[j] then s
    else
      var t := match k
        case Battery => s.(batteries := s.batteries[j := false])
        case Turtle => s.(turtles := s.turtles[j := false]);
      t.(multiplier := Factor(k), speedPending := true)
  }

  /** The `forEach` over the power-ups of kind `k`, from index `j` upward,
      hitting those whose index is in `near`. */
  function Sweep(s: GameState, k: Kind, near: set<nat>, j: nat): (r: GameState)
    requires j <= |Alive(s, k)|
    ensures |Alive(r, k)| == |Alive(s, k)|
    ensures Alive(r, Other(k)) == Alive(s, Other(k))
    ensures Rest(r) == Rest(s)
    decreases |Alive(s, k)| - j
  {
    if j == |Alive(s, k)| then s
    else Sweep(if j in near then Collide(s, k, j) else s, k, near, j + 1)
  }

  /** Some live power-up of `alive` at index `j` or later is near. */
  predicate HitFrom(alive: seq<bool>, near: set<nat>, j: nat)
  {
    exists m :: j <= m < |alive| && alive[m] && m in near
  }

  /** One frame's collision checks: batteries first, then turtles. A frame
      after the game is over does nothing (the loop has stopped). */
  function Frame(s: GameState, nearB: set<nat>, nearT: set<nat>): (r: GameState)
    ensures s.Over() ==> r == s
    ensures |r.batteries| == |s.batteries| && |r.turtles| == |s.turtles|
    ensures Rest(r) == Rest(s)
  {
    if s.Over() then s
    else Sweep(Sweep(s, Battery, nearB, 0), Turtle, nearT, 0)
  }

  /** The reset timeout fires: speed is back to 1. Only the latest timeout
      is still scheduled, so a second firing has nothing to do. */
  function SpeedExpire(s: GameState): (r: GameState)
    ensures s.speedPending ==> r.multiplier == 1.0 && !r.speedPending
    ensures !s.speedPending ==> r == s
    ensures r.(multiplier := s.multiplier, speedPending := s.speedPending) == s
  {
    if s.speedPending then s.(multiplier := 1.0, speedPending := false) else s
  }

  // ----- lemmas -----

  /** A sweep removes exactly the live power-ups at `j` or later whose
      index is near. */
  lemma {:induction false} SweepFlags(s: GameState, k: Kind, near: set<nat>, j: nat)
    requires j <= |Alive(s, k)|
    ensures var r := Sweep(s, k, near, j);
      forall m :: 0 <= m < |Alive(s, k)| ==>
        Alive(r, k)[m] == (Alive(s, k)[m] && !(j <= m && m in near))
    decreases |Alive(s, k)| - j
  {
    if j < |Alive(s, k)| {
      var t := if j in near then Collide(s, k, j) else s;
      SweepFlags(t, k, near, j + 1);
    }
  }

  /** A sweep that hits something leaves the kind's factor with a reset
      pending; one that hits nothing leaves the speed as it was. */
  lemma {:induction false} SweepSpeed(s: GameState, k: Kind, near: set<nat>, j: nat)
    requires j <= |Alive(s, k)|
    ensures var r := Sweep(s, k, near, j);
      && r.multiplier == (if HitFrom(Alive(s, k), near, j) then Factor(k) else s.multiplier)
      && r.speedPending == (s.speedPending || HitFrom(Alive(s, k), near, j))
    decreases |Alive(s, k)| - j
  {
    if j < |Alive(s, k)| {
      var t := if j in near then Collide(s, k, j) else s;
      SweepSpeed(t, k, near, j + 1);
      var hitHere := Alive(s, k)[j] && j in near;
      assert HitFrom(Alive(s, k), near, j) <==> hitHere || HitFrom(Alive(t, k), near, j + 1) by {
        if HitFrom(Alive(t, k), near, j + 1) {
          var m :| j + 1 <= m < |Alive(t, k)| && Alive(t, k)[m] && m in near;
          assert Alive(s, k)[m];
        }
        if HitFrom(Alive(s, k), near, j) && !hitHere {
          var m :| j <= m < |Alive(s, k)| && Alive(s, k)[m] && m in near;
          assert m != j;
          assert Alive(t, k)[m];
        }
      }
    }
  }

  /** Closed form of a sweep: exactly the live power-ups at `j` or later
      whose index is near are removed; if any was hit the multiplier is the
      kind's factor with a reset pending, otherwise it is unchanged; the
      other kind and the rest of the state are untouched. */
  lemma SweepEffect(s: GameState, k: Kind, near: set<nat>, j: nat)
    requires j <= |Alive(s, k)|
    ensures var r := Sweep(s, k, near, j);
      && |Alive(r, k)| == |Alive(s, k)|
      && (forall m :: 0 <= m < |Alive(s, k)| ==>
            Alive(r, k)[m] == (Alive(s, k)[m] && !(j <= m && m in near)))
      && r.multiplier == (if HitFrom(Alive(s, k), near, j) then Factor(k) else s.multiplier)
      && r.speedPending == (s.speedPending || HitFrom(Alive(s, k), near, j))
      && Alive(r, Other(k)) == Alive(s, Other(k))
      && Rest(r) == Rest(s)
  {
    SweepFlags(s, k, near, j);
    SweepSpeed(s, k, near, j);
  }

  /** One frame: the power-ups removed are exactly the live ones that are
      near; a turtle hit leaves the multiplier at 0.5 whatever else was hit,
      otherwise a battery hit leaves it at 2, and a frame with no hit leaves
      it unchanged. */
  lemma FrameEffect(s: GameState, nearB: set<nat>, nearT: set<nat>)
    requires !s.Over()
    ensures var r := Frame(s, nearB, nearT);
      && |r.batteries| == |s.batteries| && |r.turtles| == |s.turtles|
      && (forall m :: 0 <= m < |s.batteries| ==> r.batteries[m] == (s.batteries[m] && m !in nearB))
      && (forall m :: 0 <= m < |s.turtles| ==> r.turtles[m] == (s.turtles[m] && m !in nearT))
      && r.multiplier == (if HitFrom(s.turtles, nearT, 0) then 0.5
                          else if HitFrom(s.batteries, nearB, 0) then 2.0
                          else s.multiplier)
      && r.speedPending == (s.speedPending || HitFrom(s.turtles, nearT, 0) || HitFrom(s.batteries, nearB, 0))
      && Rest(r) == Rest(s)
  {
    var b := Sweep(s, Battery, nearB, 0);
    SweepEffect(s, Battery, nearB, 0);
    SweepEffect(b, Turtle, nearT, 0);
  }

  /** A power-up fires at most once: a second collision with it changes
      nothing. */
  lemma CollideOneShot(s: GameState, k: Kind, j: nat)
    requires j < |Alive(s, k)|
    ensures Collide(Collide(s, k, j), k, j) == Collide(s, k, j)
  {
  }

  /** The newest hit wins: a turtle right after a battery gives exactly 0.5,
      not a product of the two. */
  lemma NewestHitWins(s: GameState, b: nat, t: nat)
    requires b < |s.batteries| && s.batteries[b]
    requires t < |s.turtles| && s.turtles[t]
    ensures Collide(Collide(s, Battery, b), Turtle, t).multiplier == 0.5
    ensures SpeedExpire(Collide(Collide(s, Battery, b), Turtle, t)).multiplier == 1.0
  {
  }

  lemma FramePreservesInv(s: GameState, nearB: set<nat>, nearT: set<nat>)
    requires Inv(s)
    ensures Inv(Frame(s, nearB, nearT))
  {
    if !s.Over() {
      FrameEffect(s, nearB, nearT);
      var r := Frame(s, nearB, nearT);
      assert r.active == s.active && r.carrying == s.carrying && r.next == s.next;
    }
  }

  lemma SpeedExpirePreservesInv(s: GameState)
    requires Inv(s)
    ensures Inv(SpeedExpire(s))
  {
  }
}

=== FILE: scheduler.dfy ===
/** The phone: which catalog order rings, accepting it, and the per-order
    one-second countdowns. The 15 s ring cadence and the interval clock are
    replaced by the explicit events `Ring` and `Tick`. */
module Scheduler {
  import opened Orders
  import opened Game

  /** `ringPhone`: rings for the next catalog order unless the catalog is
      used up, the phone already rings or the game is over. */
  function Ring(s: GameState): (r: GameState)
    ensures r.ringing <==> s.ringing || (s.next < |Catalog| && !s.Over())
    ensures s.ringing ==> r == s
    ensures r.ringing == s.ringing ==> r == s
    ensures !s.ringing && r.ringing ==> r.pending == s.next
    ensures r.(ringing := s.ringing, pending := s.pending) == s
  {
    if s.next >= |Catalog| || s.ringing || s.Over() then s
    else s.(ringing := true, pending := s.next)
  }

  /** `startOrder(idx)`: appends an order with the catalog's pizza count and
      time and a live timer, and places one battery and one turtle. Orders
      already active keep their countdowns. */
  function StartOrder(s: GameState, idx: nat): (r: GameState)
    requires idx < |Catalog|
    ensures |r.active| == |s.active| + 1
    ensures r.active[..|s.active|] == s.active
    ensures r.active[|s.active|] == ActiveOrder(idx, Catalog[idx].pizzas, Catalog[idx].time, true)
    ensures r.batteries == s.batteries + [true] && r.turtles == s.turtles + [true]
    ensures r.(active := s.active, batteries := s.batteries, turtles := s.turtles) == s
  {
    var cfg := Catalog[idx];
    s.(active := s.active + [ActiveOrder(idx, cfg.pizzas, cfg.time, true)],
       batteries := s.batteries + [true],
       turtles := s.turtles + [true])
  }

  /** The phone-icon click handler exactly as written: it only checks that
      the phone rings, not whether the game is over. */
  function AcceptAsWritten(s: GameState): (r: GameState)
    requires s.ringing ==> s.pending < |Catalog|
    ensures !s.ringing ==> r == s
    ensures s.ringing ==> !r.ringing && r.next == s.next + 1
    ensures s.ringing ==> r.active == s.active + [ActiveOrder(s.pending, Catalog[s.pending].pizzas, Catalog[s.pending].time, true)]
    ensures s.ringing ==> && r.batteries == s.batteries + [true] && r.turtles == s.turtles + [true]
                          && r.(ringing := s.ringing, next := s.next, active := s.active,
                                batteries := s.batteries, turtles := s.turtles) == s
  {
    if !s.ringing then s
    else StartOrder(s.(ringing := false), s.pending).(next := s.next + 1)
  }

  /** The phone-icon click handler with the `gameOver` guard every other
      handler of the game has. Accepting starts exactly the order that rang
      and moves the next-order index forward by one. */
  function Accept(s: GameState): (r: GameState)
    requires s.ringing ==> s.pending < |Catalog|
    ensures !s.ringing || s.Over() ==> r == s
    ensures s.ringing && !s.Over() ==> && !r.ringing
                                       && r.next == s.next + 1
                                       && |r.active| == |s.active| + 1
                                       && r.active[..|s.active|] == s.active
                                       && r.active[|s.active|].idx == s.pending
                                       && r.active[|s.active|].pizzasNeeded == Catalog[s.pending].pizzas
                                       && r.active[|s.active|].timeLeft == Catalog[s.pending].time
                                       && r.active[|s.active|].ticking
    ensures s.ringing && !s.Over() ==> && r.batteries == s.batteries + [true] && r.turtles == s.turtles + [true]
                                       && r.(ringing := s.ringing, next := s.next, active := s.active,
                                             batteries := s.batteries, turtles := s.turtles) == s
    ensures r.next >= s.next
    ensures r.delivered == s.delivered && r.carrying == s.carrying && r.outcome == s.outcome
  {
    if !s.ringing || s.Over() then s else AcceptAsWritten(s)
  }

  /** One firing of the interval of order `i`: it decrements that order's
      countdown only, and a countdown reaching 0 ends the whole game as a
      loss. A cleared (or never started) interval does not fire. */
  function Tick(s: GameState, i: nat): (r: GameState)
    ensures var l := Locate(s.active, i);
      (l.None? || !s.active[l.value].ticking) ==> r == s
    ensures var l := Locate(s.active, i);
      l.Some? && s.active[l.value].ticking ==>
        && |r.active| == |s.active|
        && r.active[l.value].timeLeft == s.active[l.value].timeLeft - 1
        && (forall k :: 0 <= k < |s.active| && k != l.value ==> r.active[k].timeLeft == s.active[k].timeLeft)
        && (forall k :: 0 <= k < |s.active| ==>
              r.active[k].idx == s.active[k].idx && r.active[k].pizzasNeeded == s.active[k].pizzasNeeded)
        && (s.active[l.value].timeLeft - 1 <= 0 ==> r.Over() && (!s.Over() ==> r.outcome == Lost))
        && (!s.Over() && s.active[l.value].timeLeft - 1 <= 0 ==>
              forall k :: 0 <= k < |r.active| ==> !r.active[k].ticking)
        && (s.active[l.value].timeLeft - 1 > 0 ==>
              r.outcome == s.outcome && forall k :: 0 <= k < |s.active| ==> r.active[k].ticking == s.active[k].ticking)
    ensures r.(active := s.active, outcome := s.outcome) == s
  {
    match Locate(s.active, i)
    case None => s
    case Some(p) =>
      var o := s.active[p];
      if !o.ticking then s
      else
        var d := s.(active := s.active[p := o.(timeLeft := o.timeLeft - 1)]);
        if o.timeLeft - 1 <= 0 then EndGame(d, false) else d
  }

  // ----- the invariant is preserved -----

  lemma RingPreservesInv(s: GameState)
    requires Inv(s)
    ensures Inv(Ring(s))
  {
  }

  lemma AcceptPreservesInv(s: GameState)
    requires Inv(s)
    ensures Inv(Accept(s))
  {
  }

  lemma TickPreservesInv(s: GameState, i: nat)
    requires Inv(s)
    ensures Inv(Tick(s, i))
  {
  }
}

=== FILE: session.dfy ===
/** The game as a state machine over explicit events: the phone's ring
    timer, a tap on the phone, one firing of an order's interval, a tap on
    the map, one animation frame, and the speed-reset timeout. */
module Session {
  import opened Orders
  import opened Game
  import Scheduler
  import Delivery
  import PowerUps

  datatype Event =
    | Ring
    | Accept
    | Tick(order: nat)
    | Click(nearShop: bool, nearHouses: set<nat>)
    | Frame(nearBatteries: set<nat>, nearTurtles: set<nat>)
    | SpeedExpire

  /** A ringing phone refers to a catalog order (`orders[idx]` must exist). */
  predicate PendingValid(s: GameState)
  {
    s.ringing ==> s.pending < |Catalog|
  }

  /** One event, dispatched to its handler. Only a phone tap starts an
      order, only a map tap moves cargo or deliveries, and only a frame or
      the reset timeout touches the speed. */
  function Step(s: GameState, e: Event): (r: GameState)
    requires PendingValid(s)
    ensures !e.Accept? ==> r.next == s.next && |r.active| <= |s.active|
    ensures !e.Click? ==> r.carrying == s.carrying && r.delivered == s.delivered
    ensures !e.Frame? && !e.SpeedExpire? ==> r.multiplier == s.multiplier
  {
    match e
    case Ring => Scheduler.Ring(s)
    case Accept => Scheduler.Accept(s)
    case Tick(i) => Scheduler.Tick(s, i)
    case Click(nearShop, near) => Delivery.Click(s, nearShop, near)
    case Frame(nearB, nearT) => PowerUps.Frame(s, nearB, nearT)
    case SpeedExpire => PowerUps.SpeedExpire(s)
  }

  /** Every event keeps the invariant: cargo in [0, 4] with a matching tail,
      the delivered count at most the catalog size, one ringing order that is
      the next unstarted one, live countdowns exactly while the game runs. */
  lemma StepPreservesInv(s: GameState, e: Event)
    requires Inv(s)
    ensures Inv(Step(s, e))
  {
    match e
    case Ring => Scheduler.RingPreservesInv(s);
    case Accept => Scheduler.AcceptPreservesInv(s);
    case Tick(i) => Scheduler.TickPreservesInv(s, i);
    case Click(nearShop, near) => Delivery.ClickPreservesInv(s, nearShop, near);
    case Frame(nearB, nearT) => PowerUps.FramePreservesInv(s, nearB, nearT);
    case SpeedExpire => PowerUps.SpeedExpirePreservesInv(s);
  }

  /** The state after a sequence of events; it keeps the invariant. */
  function Run(s: GameState, es: seq<Event>): (r: GameState)
    requires Inv(s)
    ensures Inv(r)
    decreases |es|
  {
    if |es| == 0 then s
    else
      StepPreservesInv(s, es[0]);
      Run(Step(s, es[0]), es[1..])
  }

  /** Every reachable state satisfies the invariant. */
  lemma ReachableInv(es: seq<Event>)
    ensures Inv(Run(Init, es))
  {
  }

  /** What never goes back: the next-order index moves forward by at most
      one, the delivered count never decreases, and a finished game keeps
      its outcome. */
  lemma StepMonotone(s: GameState, e: Event)
    requires Inv(s)
    ensures var r := Step(s, e);
      && s.next <= r.next <= s.next + 1
      && s.delivered <= r.delivered
      && (s.Over() ==> r.outcome == s.outcome)
  {
    match e
    case Click(nearShop, near) =>
      if !s.Over() && !nearShop {
        Delivery.ScanCount(s, near, |s.active|);
        Delivery.ScanFrame(s, near, |s.active|);
      }
    case Frame(nearB, nearT) =>
      if !s.Over() {
        PowerUps.FrameEffect(s, nearB, nearT);
      }
    case _ =>
  }

  lemma {:induction false} RunMonotone(s: GameState, es: seq<Event>)
    requires Inv(s)
    ensures var r := Run(s, es);
      && s.next <= r.next <= s.next + |es|
      && s.delivered <= r.delivered <= |Catalog|
      && (s.Over() ==> r.outcome == s.outcome)
    decreases |es|
  {
    if |es| > 0 {
      StepMonotone(s, es[0]);
      StepPreservesInv(s, es[0]);
      RunMonotone(Step(s, es[0]), es[1..]);
    }
  }

  /** Game over is terminal: no event changes anything but the speed
      multiplier (whose reset timeout `endGame` does not cancel). */
  lemma GameOverIsTerminal(s: GameState, e: Event)
    requires Inv(s) && s.Over()
    ensures var r := Step(s, e);
      && r.(multiplier := s.multiplier, speedPending := s.speedPending) == s
      && (!e.SpeedExpire? ==> r == s)
  {
  }

  /** The game is won exactly when the whole catalog has been delivered, and
      never more than the catalog is delivered. */
  lemma WonIffAllDelivered(es: seq<Event>)
    ensures var r := Run(Init, es);
      && (r.outcome == Won <==> r.delivered == |Catalog|)
      && r.delivered <= |Catalog|
  {
  }

  function Repeat(e: Event, n: nat): (r: seq<Event>)
    ensures |r| == n
    ensures forall k :: 0 <= k < n ==> r[k] == e
  {
    if n == 0 then [] else [e] + Repeat(e, n - 1)
  }

  /** Fewer firings than the seconds left: the game still runs and the
      order is at its place with that many seconds fewer. */
  lemma {:induction false} TicksBeforeDeadline(s: GameState, p: nat, n: nat)
    requires Inv(s) && !s.Over() && p < |s.active| && n < s.active[p].timeLeft
    ensures var r := Run(s, Repeat(Tick(s.active[p].idx), n));
      && r.outcome == Running && p < |r.active|
      && r.active[p].idx == s.active[p].idx
      && r.active[p].timeLeft == s.active[p].timeLeft - n
    decreases n
  {
    if n > 0 {
      var i := s.active[p].idx;
      assert OrderOk(s.active[p], s.next, s.outcome);
      LocateUnique(s, p);
      assert Repeat(Tick(i), n)[1..] == Repeat(Tick(i), n - 1);
      StepPreservesInv(s, Tick(i));
      var s' := Step(s, Tick(i));
      assert s'.active[p].idx == i && s'.active[p].timeLeft == s.active[p].timeLeft - 1;
      TicksBeforeDeadline(s', p, n - 1);
    }
  }

  /** An order nobody delivers ends the whole game as a loss after exactly
      its remaining seconds, and not a second earlier, even while other
      orders are still active; the phone and the next-order index are left
      as they were. */
  lemma {:induction false} CountdownEndsGame(s: GameState, p: nat)
    requires Inv(s) && !s.Over() && p < |s.active|
    ensures s.active[p].timeLeft > 0
    ensures forall n: nat :: n < s.active[p].timeLeft ==>
      Run(s, Repeat(Tick(s.active[p].idx), n)).outcome == Running
    ensures var r := Run(s, Repeat(Tick(s.active[p].idx), s.active[p].timeLeft as nat));
      && r.outcome == Lost
      && r.ringing == s.ringing && r.pending == s.pending
      && r.next == s.next && r.delivered == s.delivered
    decreases s.active[p].timeLeft
  {
    forall n: nat | n < s.active[p].timeLeft
      ensures Run(s, Repeat(Tick(s.active[p].idx), n)).outcome == Running
    {
      TicksBeforeDeadline(s, p, n);
    }
    var i := s.active[p].idx;
    var t := s.active[p].timeLeft;
    assert OrderOk(s.active[p], s.next, s.outcome);
    LocateUnique(s, p);
    var es := Repeat(Tick(i), t as nat);
    assert es[1..] == Repeat(Tick(i), (t - 1) as nat);
    StepPreservesInv(s, Tick(i));
    var s' := Step(s, Tick(i));
    if t > 1 {
      assert s'.active[p].idx == i && s'.active[p].timeLeft == t - 1;
      CountdownEndsGame(s', p);
    }
  }

  // ----- scenarios -----

  /** Accept order 0 (2 pizzas), pick up four pizzas (a fifth tap at the
      shop does nothing), deliver: two pizzas remain, one order delivered. */
  lemma FirstDeliveryScenario()
    ensures var s1 := Step(Step(Init, Ring), Accept);
      var s2 := Step(Step(Step(Step(s1, Click(true, {})), Click(true, {})), Click(true, {})), Click(true, {}));
      var s3 := Step(s2, Click(true, {}));
      var s4 := Step(s3, Click(false, {0}));
      && s2.carrying == 4 && s3 == s2
      && s4.carrying == 2 && s4.tail == 2 && s4.delivered == 1
      && s4.active == [] && s4.outcome == Running
  {
  }

  /** Two overlapping orders near the same tap, 2 + 1 pizzas on board: one
      tap delivers both, newest first. */
  lemma OneTapDeliversTwo()
    ensures var s1 := Step(Step(Step(Step(Init, Ring), Accept), Ring), Accept);
      var s2 := Step(Step(Step(s1, Click(true, {})), Click(true, {})), Click(true, {}));
      var s3 := Step(s2, Click(false, {0, 1}));
      && |s1.active| == 2 && s2.carrying == 3
      && s3.delivered == 2 && s3.carrying == 0 && s3.active == []
  {
  }

  /** Newest first: orders 0 to 3 are active (2, 1, 3 and 2 pizzas), three
      pizzas are on board and the houses of orders 0 and 3 are near. Order
      3 is served first and order 0 no longer fits, so it stays. */
  lemma NewestFirstScenario()
    ensures var s1 := Step(Step(Step(Step(Init, Ring), Accept), Ring), Accept);
      var s2 := Step(Step(Step(Step(s1, Ring), Accept), Ring), Accept);
      var s3 := Step(Step(Step(s2, Click(true, {})), Click(true, {})), Click(true, {}));
      var s4 := Step(s3, Click(false, {0, 3}));
      && |s2.active| == 4 && s3.carrying == 3
      && s4.delivered == 1 && s4.carrying == 1
      && |s4.active| == 3 && s4.active[0].idx == 0
  {
    var s1 := Step(Step(Step(Step(Init, Ring), Accept), Ring), Accept);
    assert s1.active == [ActiveOrder(0, 2, 45, true), ActiveOrder(1, 1, 30, true)];
    var s2 := Step(Step(Step(Step(s1, Ring), Accept), Ring), Accept);
    assert s2.active == s1.active + [ActiveOrder(2, 3, 60, true), ActiveOrder(3, 2, 50, true)];
    assert s2.carrying == 0 && s2.delivered == 0 && s2.outcome == Running;
    var s3 := Step(Step(Step(s2, Click(true, {})), Click(true, {})), Click(true, {}));
    assert s3.active == s2.active && s3.carrying == 3 && s3.delivered == 0 && s3.outcome == Running;
  }

  // ----- the phone handler without a game-over guard -----

  /** Reachable: order 0 runs out while the phone rings for order 1. */
  lemma LossWhileRinging()
    ensures var s3 := Step(Step(Step(Init, Ring), Accept), Ring);
      && Inv(s3)
      && |s3.active| == 1 && s3.active[0].idx == 0 && s3.active[0].timeLeft == 45
      && var r := Run(s3, Repeat(Tick(0), 45));
         r.outcome == Lost && r.ringing && r.pending == 1
  {
    var s0 := Step(Init, Ring);
    var s1 := Step(s0, Accept);
    var s3 := Step(s1, Ring);
    InitInv();
    StepPreservesInv(Init, Ring);
    StepPreservesInv(s0, Accept);
    StepPreservesInv(s1, Ring);
    assert s3.active == [ActiveOrder(0, 2, 45, true)];
    CountdownEndsGame(s3, 0);
  }

  /** As written, tapping a phone that still rings after the game is lost
      starts an order whose countdown is live after game over, breaking the
      invariant that no countdown outlives the game. */
  lemma AcceptAsWrittenLeaksCountdown(s: GameState)
    requires Inv(s) && s.outcome == Lost && s.ringing
    ensures var r := Scheduler.AcceptAsWritten(s);
      && r.Over() && |r.active| == |s.active| + 1
      && r.active[|s.active|].ticking && !Inv(r)
      && Locate(r.active, s.pending) == Some(|s.active|)
  {
  }

  /** Once game over has passed, `endGame` does nothing more, so a live
      countdown is never cleared: each firing decrements it and leaves it
      live, past zero and on. */
  lemma LeakedCountdownNeverStops(s: GameState, p: nat)
    requires s.Over() && p < |s.active| && s.active[p].ticking
    requires Locate(s.active, s.active[p].idx) == Some(p)
    ensures var t := Scheduler.Tick(s, s.active[p].idx);
      && t.Over() && t.active[p].ticking
      && t.active[p].timeLeft == s.active[p].timeLeft - 1
      && Locate(t.active, s.active[p].idx) == Some(p)
  {
  }

  /** With the guard, the same tap after a loss changes nothing, so no
      countdown outlives the game. */
  lemma GuardedAcceptAfterLoss(s: GameState)
    requires Inv(s) && s.outcome == Lost && s.ringing
    ensures Step(s, Accept) == s
    ensures forall k :: 0 <= k < |Step(s, Accept).active| ==> !Step(s, Accept).active[k].ticking
  {
  }

  // ----- the machine with the handler as written -----

  /** What the orders keep with the unguarded handler: the invariant's
      order facts, except that a countdown may outlive the game; while the
      game runs every countdown is live and has time left. */
  predicate LooseOrderOk(o: ActiveOrder, next: nat, outcome: Outcome)
  {
    && o.idx < next
    && o.idx < |Catalog|
    && o.pizzasNeeded == Catalog[o.idx].pizzas
    && o.timeLeft <= Catalog[o.idx].time
    && (outcome == Running ==> o.ticking && o.timeLeft > 0)
  }

  /** `Inv` with the countdown clause loosened to `LooseOrderOk`: cargo in
      [0, 4] with a matching tail, every started order active or delivered,
      the ringing order the next unstarted one, won iff all delivered. */
  predicate InvAsWritten(s: GameState)
  {
    && CargoOk(s) && ScheduleOk(s) && SessionOk(s) && PowerOk(s)
    && Ascending(s.active)
    && forall p :: 0 <= p < |s.active| ==> LooseOrderOk(s.active[p], s.next, s.outcome)
  }

  /** One event, with the phone tap handled exactly as written. */
  function StepAsWritten(s: GameState, e: Event): (r: GameState)
    requires PendingValid(s)
    ensures !e.Accept? ==> r == Step(s, e)
    ensures !s.Over() ==> r == Step(s, e)
  {
    match e
    case Accept => Scheduler.AcceptAsWritten(s)
    case _ => Step(s, e)
  }

  /** The loosened invariant is the invariant while the game runs. */
  lemma InvAsWrittenWhileRunning(s: GameState)
    ensures Inv(s) ==> InvAsWritten(s)
    ensures InvAsWritten(s) && !s.Over() ==> Inv(s)
  {
  }

  /** With the handler as written, every event keeps the loosened invariant:
      the cargo, schedule, delivery-count and speed facts of `Inv` hold for
      the code as it stands, leaked countdown or not. */
  lemma StepAsWrittenPreservesInv(s: GameState, e: Event)
    requires InvAsWritten(s)
    ensures InvAsWritten(StepAsWritten(s, e))
  {
    if !s.Over() {
      InvAsWrittenWhileRunning(s);
      StepPreservesInv(s, e);
      InvAsWrittenWhileRunning(StepAsWritten(s, e));
    } else {
      match e
      case Accept =>
        var r := Scheduler.AcceptAsWritten(s);
        assert forall p :: 0 <= p < |r.active| ==> LooseOrderOk(r.active[p], r.next, r.outcome);
      case Tick(i) =>
        var r := Scheduler.Tick(s, i);
        assert forall p :: 0 <= p < |r.active| ==> LooseOrderOk(r.active[p], r.next, r.outcome);
      case _ =>
    }
  }

  /** With the handler as written, the next-order index still moves forward
      by at most one, deliveries never go back, and a finished game keeps
      its outcome. */
  lemma StepAsWrittenMonotone(s: GameState, e: Event)
    requires InvAsWritten(s)
    ensures var r := StepAsWritten(s, e);
      && s.next <= r.next <= s.next + 1
      && s.delivered <= r.delivered
      && (s.Over() ==> r.outcome == s.outcome)
  {
    if !s.Over() {
      InvAsWrittenWhileRunning(s);
      StepMonotone(s, e);
    }
  }

  /** The state after a sequence of events with the handler as written. */
  function RunAsWritten(s: GameState, es: seq<Event>): (r: GameState)
    requires InvAsWritten(s)
    ensures InvAsWritten(r)
    decreases |es|
  {
    if |es| == 0 then s
    else
      StepAsWrittenPreservesInv(s, es[0]);
      RunAsWritten(StepAsWritten(s, es[0]), es[1..])
  }

  /** Every state the code as written can reach: cargo in [0, 4] with one
      tail marker per pizza, at most the catalog delivered, won exactly
      when all of it is, and the next-order index and deliveries only grow. */
  lemma {:induction false} ReachableAsWritten(s: GameState, es: seq<Event>)
    requires InvAsWritten(s)
    ensures var r := RunAsWritten(s, es);
      && 0 <= r.carrying <= Capacity && r.tail == r.carrying
      && r.delivered <= |Catalog|
      && (r.outcome == Won <==> r.delivered == |Catalog|)
      && s.next <= r.next <= s.next + |es|
      && s.delivered <= r.delivered
      && (s.Over() ==> r.outcome == s.outcome)
    decreases |es|
  {
    if |es| > 0 {
      StepAsWrittenMonotone(s, es[0]);
      StepAsWrittenPreservesInv(s, es[0]);
      ReachableAsWritten(StepAsWritten(s, es[0]), es[1..]);
    }
  }

  /** The load-time state satisfies the loosened invariant. */
  lemma InitInvAsWritten()
    ensures InvAsWritten(Init)
  {
  }
}
